=== FILE: README.md ===
# nats-top, modelled in Dafny

nats-top is a `top`-like terminal dashboard for a NATS server. It polls the server's HTTP
monitoring endpoint and shows server vitals and one row per client connection. It is
driven by single-key commands:

- `o<option>` sets the sort key;
- `n<limit>` sets how many connections to request;
- `s` toggles the subscriptions column;
- `h`/`?` opens the help view;
- `q` or Ctrl-C quits.

This project models the core of `nats-top.go`:

- **Startup** (`Startup.dfy`): from the parsed flags, `main` chooses the monitoring URI (`https` when a secure port is set, otherwise `http`). It rejects a missing host, a missing port and an unrecognised sort option.
- **Sort options** (`SortKeys.dfy`): the closed set of seven wire tokens `cid`, `subs`, `pending`, `msgs_to`, `msgs_from`, `bytes_to` and `bytes_from`, and their resolution from text.
- **The keyboard event loop** of `StartUI`:
  - `Keyboard.dfy` holds the reference transition function `Next`, organised by mode, and `Run` over a sequence of events.
  - `EventLoop.dfy` holds the class `UIState`. Its fields are the loop's local variables, and it holds the shared `Engine` (`Monitor.dfy`). Its method `Step` follows the source's chain of `if`s and `continue`s statement by statement and is proved equal to `Next`. `Loop` is the event loop over a finite sequence of events.
  - `KeyboardProperties.dfy` holds what the loop promises: prompts, quitting, help, the toggle, and whole typed commands.
- **`generateParagraph`** (`Formatter.dfy`, `FormatterProperties.dfy`): the vitals block, the column header and one row per connection. The connection array is sorted in place first: ascending by connection id, descending by any other option. The paragraph is modelled as cells (`Str`, `Int`, `Size` for the util package's `Psize`, `Fixed1` for `%.1f`), not as padded text.
- **Support modules**:
  - `Text.dfy`: bytes, and Go's `strings.Join`.
  - `Runes.dfy`: `string(rune)`, that is, UTF-8 encoding with U+FFFD for invalid runes.
  - `Decimal.dfy`: `%d` rendering and `fmt.Sscanf(s, "%d", &n)`.

Go strings are byte strings, so the option buffer is a `seq<byte>`. Backspace drops the last byte, and a typed character appends its UTF-8 bytes.

The model follows the code's behaviour, including these quirks:

- a backspace on an empty buffer appends a NUL byte;
- a resize event during a prompt appends its (zero) character;
- `s` toggles the subscriptions column even in the help view, before the key returns to the top view;
- a negative limit typed at the `n` prompt is accepted, because the code accepts anything `%d` scans.

## Model

| member | source | states |
|---|---|---|
| Startup.LaunchFrom | nats-top.go:57-119 | Version flag wins. Otherwise, a missing host is fatal, then a zero plain and secure port, then an unresolvable sort token. In each case that is the only outcome (iff). On start, the sort key's token is the flag text, `secure` iff the secure port is set, and the URI and limits come from the flags. |
| Startup.MonitorUri | nats-top.go:96-99 | The URI starts with `https://` when the secure port is set, and with `http://` otherwise. |
| Startup.UriRoundTrip | nats-top.go:96-99 | The URI is the scheme for the chosen port (https iff the secure port is non-zero), then the host, then a colon. The rest scans back to exactly the port in use. |
| Monitor.Engine.constructor | nats-top.go:62-64 | The engine starts with the flag values and subscriptions hidden. |
| SortKeys.Token | nats-top.go:112-114 | Every sort token is ASCII and at least three bytes long. |
| SortKeys.TokenWithoutQ | nats-top.go:415 | No sort token contains `q`, so each can be typed at the prompt without quitting. |
| SortKeys.Resolve | nats-top.go:112-119 | A resolved key's token is exactly the text given. |
| SortKeys.TokenInjective | nats-top.go:114 | Distinct sort keys have distinct tokens. |
| SortKeys.ResolveToken | nats-top.go:356-359 | Every key's own token resolves to that key. |
| SortKeys.ResolveExactly | nats-top.go:356-359 | Text resolves iff it is one of the seven tokens. |
| Text.JoinLength | nats-top.go:244 | The joined subscriptions have the parts' total length plus one separator between each pair. |
| Text.JoinCons | nats-top.go:244 | Read from the front, the joined subscriptions are the first subject, `, `, then the rest joined. |
| Runes.EncodeRune | nats-top.go:384 | `string(e.Ch)` is 1 to 4 bytes. It is one byte, equal to the rune, iff the rune is ASCII. Otherwise every byte is non-ASCII. |
| Runes.EncodeDecode | nats-top.go:384 | Decoding the encoding gives the rune back when it is a Unicode scalar value, and U+FFFD otherwise. |
| Decimal.LeadingDigits | nats-top.go:394 | The count is of a prefix made only of digits, followed by a non-digit or the end. |
| Decimal.ScanInt | nats-top.go:393-397 | A successful scan lies in the 64-bit range. |
| Decimal.Digits | nats-top.go:240 | `%d` of a natural number is a non-empty run of digits with no leading zero (only 0 itself starts with `0`). |
| Decimal.Show | nats-top.go:240 | `%d` of a negative number is a minus sign and then digits. Of any other number it is a non-empty run of digits. |
| Decimal.ValueOfDigits | nats-top.go:240 | The digits `%d` prints have exactly the printed value. |
| Decimal.LeadingDigitsOf | nats-top.go:394 | Digits followed by a non-digit scan as exactly those digits. |
| Decimal.DigitsThenRest | nats-top.go:394 | Digits followed by a non-digit carry no sign, and their leading digits give back the value. |
| Decimal.ScanShow | nats-top.go:393-397 | Scanning the `%d` text of any 64-bit value, followed by any non-digit text, gives the value back. |
| Decimal.ScanNeedsDigit | nats-top.go:394-395 | Text without a digit at the front, after an optional sign, fails to scan, so the limit is kept. |
| Keyboard.Initial | nats-top.go:326-330 | The loop starts with both prompts closed, an empty buffer, the top view and subscriptions hidden in both flags. It keeps the given sort key and limit, is not quitting, and satisfies the invariant. |
| Keyboard.Edit | nats-top.go:380-385 | A computing helper of `Next`. KeyboardProperties.PromptEdit states its effect: a backspace drops the last byte of a non-empty buffer, and anything else appends the UTF-8 bytes of the character. |
| Keyboard.CommitSort | nats-top.go:354-376 | A computing helper of `Next`. KeyboardProperties.SortCommit states its effect: a resolvable buffer sets the key, otherwise the key stays. The prompt closes and the buffer empties. |
| Keyboard.CommitLimit | nats-top.go:391-402 | A computing helper of `Next`. KeyboardProperties.LimitCommit states its effect: a scanned value sets the limit, otherwise the limit stays. The prompt closes and the buffer empties. |
| Keyboard.ToggleSubs | nats-top.go:420-428 | A computing helper of `Next`. KeyboardProperties.ToggleOnlyWhenIdle and HelpDismiss state its effect: `s` flips both subscription flags together, and anything else leaves them. |
| Keyboard.Next | nats-top.go:352-462 | Each event preserves the invariant: at most one prompt, no prompt in the help view, the loop's and engine's subscription flags agree. Each event also keeps the buffer empty whenever no prompt is open. |
| Keyboard.Run | nats-top.go:348-467 | Any event sequence preserves the invariant. |
| KeyboardProperties.SortCommit | nats-top.go:354-376 | Enter at the sort prompt applies a resolvable buffer and otherwise keeps the old key. Either way the prompt closes and the buffer empties, and nothing else changes. |
| KeyboardProperties.LimitCommit | nats-top.go:391-403 | Enter at the limit prompt sets the limit to the scanned value, or keeps it when the scan fails. The prompt closes, the buffer empties, and nothing else changes. |
| KeyboardProperties.PromptEdit | nats-top.go:379-412 | Any other event at a prompt changes only the buffer (and quits on `q`/Ctrl-C). A backspace on a non-empty buffer drops its last byte. Anything else appends the UTF-8 bytes of the character. |
| KeyboardProperties.QuitAnywhere | nats-top.go:415-418 | The loop quits iff the event is `q` or Ctrl-C, unless Enter closed a prompt first. |
| KeyboardProperties.ToggleOnlyWhenIdle | nats-top.go:420-428 | The subscription display changes iff `s` arrives with no prompt open (in either view) and is not a quit. The loop and engine flags stay equal. |
| KeyboardProperties.HelpDismiss | nats-top.go:430-434 | In the help view, any key but quit returns to the top view, changing nothing but the `s` toggle. |
| KeyboardProperties.PromptEntry | nats-top.go:436-444 | A prompt opens iff `o` or `n` arrives in the top view with none open. Opening one changes nothing else, including the buffer. |
| KeyboardProperties.HelpEntry | nats-top.go:446-456 | The help view opens from the top view iff `h` or `?` arrives with no prompt open. It empties the buffer and changes nothing else. |
| KeyboardProperties.NonKeyEvent | nats-top.go:458-462 | A resize or other non-key event changes nothing, except that an open prompt's buffer gets the event's character appended. |
| KeyboardProperties.RunAppend | nats-top.go:348-350 | Running two event sequences one after the other is running their concatenation. |
| KeyboardProperties.RunKeepsIdleBufferEmpty | nats-top.go:348-467 | With no prompt open the buffer stays empty, over any event sequence. |
| KeyboardProperties.Typing | nats-top.go:384 | Typing a text is one key event per byte. |
| KeyboardProperties.TypingPresses | nats-top.go:384 | The i-th event of typing a text presses the key of its i-th byte. |
| KeyboardProperties.PressAtPrompt | nats-top.go:383-385 | At a prompt, a printable ASCII key other than space and `q` appends exactly its byte. |
| KeyboardProperties.TypeIntoPrompt | nats-top.go:379-386 | At a prompt, typing printable ASCII text without spaces or `q` appends exactly that text. |
| KeyboardProperties.TypeFirstByte | nats-top.go:383-385 | Typing a text at a prompt is its first byte appended, then the rest typed. |
| KeyboardProperties.TypedSortCommand | nats-top.go:436-439 | `o`, a printable ASCII text without spaces or `q`, then Enter, from the idle top view, ends in the same state with the sort key set iff the text resolves. |
| KeyboardProperties.TypedSortToken | nats-top.go:354-359 | Typing `o`, any sort key's token and Enter selects exactly that key (e.g. `o bytes_to <Enter>`). |
| KeyboardProperties.TypedLimitCommand | nats-top.go:441-444 | `n`, a printable ASCII text without spaces or `q`, then Enter, from the idle top view, sets the limit to the scanned value, or leaves everything as it was. |
| KeyboardProperties.TypedLimitValue | nats-top.go:391-397 | Typing `n`, the decimal text of any 64-bit value and Enter sets the limit to that value (e.g. `n5<Enter>` sets 5). |
| EventLoop.UIState.constructor | nats-top.go:326-330 | The loop starts in the initial state over the engine, satisfying the invariant. |
| EventLoop.UIState.EditBuffer | nats-top.go:379-385 | The buffer is edited as a prompt edits it, and no other field changes. |
| EventLoop.UIState.Step | nats-top.go:350-462 | The source's statement chain on one event has the effect of `Next` on the loop and engine state. It keeps the invariant and leaves the URI and delay alone. |
| EventLoop.UIState.Loop | nats-top.go:348-467 | Handling a sequence of events has the effect of `Run` and keeps the invariant. |
| Formatter.Stats.constructor | nats-top.go:274-278 | A snapshot holds the given vitals, connection array and rates. |
| Formatter.Truncate | nats-top.go:182-183 | `int64(rate)` truncates toward zero. A non-negative rate gives its floor, and a non-positive rate gives its ceiling. |
| Formatter.Info | nats-top.go:160-193 | The vitals block has one value per argument verb of its format string, in order, each of the kind that verb prints. The version is empty while the snapshot has no server info. The two byte rates are the truncated rates. |
| Formatter.Header | nats-top.go:197-213 | The header has 13 columns, plus SUBSCRIPTIONS iff subscriptions are displayed. |
| Formatter.Row | nats-top.go:239-252 | Every row has exactly as many values as the header has columns. |
| Formatter.Key | nats-top.go:222-237 | The field each sort option's comparator compares. FormatterProperties.SortColumnShowsKey states that it is the value shown in the option's sort column, and SortColumnTitle that this column is titled with the option's token. |
| Formatter.SortConnections | nats-top.go:222-237 | After sorting, the connections are ordered by the option's rank and are a permutation of the originals. |
| Formatter.InsertLast | nats-top.go:222-237 | One insertion pass extends the ordered prefix by one element and permutes the array. |
| Formatter.SwapDown | nats-top.go:222-237 | Swapping the moving element past a higher-ranked neighbour keeps the pass's ordering state. |
| Formatter.SettledPrefix | nats-top.go:222-237 | A pass that stops at a lower-or-equal neighbour leaves the prefix ordered. |
| Formatter.Rows | nats-top.go:239-255 | There is one row per connection. |
| Formatter.FormatRows | nats-top.go:239-255 | The loop over the connections produces their rows, in array order. |
| Formatter.GenerateParagraph | nats-top.go:154-258 | The connection array ends ordered by the engine's option and is a permutation of the input. The paragraph is the vitals, the header for the engine's toggle, and the rows of the sorted array. |
| FormatterProperties.ToggleAddsColumn | nats-top.go:197-252 | Showing subscriptions changes only the trailing column: SUBSCRIPTIONS in the header, and each row's subjects joined with ", ". |
| FormatterProperties.SortColumnShowsKey | nats-top.go:222-251 | The sort column of an option shows exactly the field that option compares. |
| FormatterProperties.SortColumnTitle | nats-top.go:206-212 | An option's sort column is titled with the option's token in upper case (`pending` is shown under PENDING, `bytes_to` under BYTES_TO). |
| FormatterProperties.RowMatchesFormat | nats-top.go:216-251 | Every value of a row is of the kind its verb in the row format string prints (`%d` for the id and subscription count, `%s` for the rest). |
| FormatterProperties.HostCell | nats-top.go:240 | The host cell is the address, a colon, and the port's decimal text, which scans back to the port. |
| FormatterProperties.OrderDirection | nats-top.go:222-237 | Ordered by id, ids never decrease down the list. Ordered by any other option, that field never increases. |
| FormatterProperties.DisplayedOrder | nats-top.go:222-255 | In the paragraph, the sort column's values run up for `cid` and down for every other option. |
| FormatterProperties.PendingScenario | nats-top.go:227-228 | Two connections with 500 and 1500 pending bytes, sorted by pending, come out as [1500, 500]. |
| FormatterProperties.PlaceholderParagraph | nats-top.go:274-281 | The placeholder snapshot renders all-zero vitals, a header without SUBSCRIPTIONS, and no rows. |

## Left out

- Rendering through termui: grids, widths, `Render`, the `%-20s`-style padding and the escape sequences that draw and mask the prompts. A paragraph is a structure of cells, not text.
- The redraw channel and the `update` goroutine. Each snapshot's paragraph is one `GenerateParagraph` call, and concurrency between the goroutines is not modelled.
- Polling and the util package:
  - `Engine.MonitorStats`, the HTTP client and the TLS configuration are not part of this model, nor are their failures (unreadable certificate files).
  - The bodies of `Psize` and of the `By*` comparators are not part of this model either. `Psize` is kept as the cell kind `Size`. Each comparator is taken to compare the field its token names.
- Flag parsing itself: the model starts from the parsed values.
- `usage()` and `log.Fatalf`: both are the `Fatal` outcome.
- Floating point: CPU and message rates are `real`, and `%.1f` is the cell kind `Fixed1`.
- `generateHelp`: the help screen's constant text. Only the help view's behaviour is modelled.
- Keyboard.CommitSort:
  - The invalid-option branch runs in a goroutine that closes the prompt at once and empties the buffer a second later. That branch is modelled as one atomic step with the final effect.
  - The race with events arriving within that second is not modelled.
- EventLoop.UIState.Loop: handles a finite event sequence. The program's loop runs until it quits and also serves redraw requests.
- Decimal.ScanInt: `Sscanf` with `%d` skips leading spaces before the sign. For example, ` 5` typed at the limit prompt sets the limit to 5, but the model fails to scan it and keeps the old limit.
- Keyboard.Next: quitting (`cleanExit`) ends the process. The model instead sets `quit`, after which no further event is handled.
- Formatter.SortConnections: `sort.Sort` is not stable. The model proves order and permutation but not which of two connections with equal keys comes first.

=== FILE: Decimal.dfy ===
/**
 * Decimal integers in text: `fmt.Sscanf(s, "%d", &n)` as the limit prompt uses it, and
 * the `%d` rendering that the monitoring URI and the host column use.
 */
module Decimal {
  import opened Text
  import opened Wrappers

  const Int64Min: int := -0x8000_0000_0000_0000
  const Int64Max: int := 0x7FFF_FFFF_FFFF_FFFF

  const Zero: byte := 48
  const Plus: byte := 43
  const Minus: byte := 45

  predicate IsDigit(b: byte) {
    Zero <= b <= Zero + 9
  }

  predicate AllDigits(d: Bytes) {
    forall i :: 0 <= i < |d| ==> IsDigit(d[i])
  }

  /** Number of digit bytes at the front of s. */
  function LeadingDigits(s: Bytes): (n: nat)
    ensures n <= |s| && AllDigits(s[..n])
    ensures n < |s| ==> !IsDigit(s[n])
  {
    if s == [] || !IsDigit(s[0]) then 0 else 1 + LeadingDigits(s[1..])
  }

  /** The value of a run of decimal digits, most significant first. */
  function ValueOf(d: Bytes): nat
    requires AllDigits(d)
  {
    if d == [] then 0 else 10 * ValueOf(d[..|d| - 1]) + (d[|d| - 1] - Zero) as int
  }

  /**
   * What `fmt.Sscanf(s, "%d", &n)` stores in an `int`: an optional sign, then at least
   * one digit; text after the digits is ignored; a value outside the 64-bit range is an error.
   */
  function ScanInt(s: Bytes): (r: Option<int>)
    ensures r.Some? ==> Int64Min <= r.value <= Int64Max
  {
    var signed := |s| > 0 && (s[0] == Plus || s[0] == Minus);
    var rest := if signed then s[1..] else s;
    var n := LeadingDigits(rest);
    if n == 0 then None
    else
      var v: int := if signed && s[0] == Minus then -(ValueOf(rest[..n]) as int) else ValueOf(rest[..n]);
      if Int64Min <= v <= Int64Max then Some(v) else None
  }

  /** `%d` of a natural number: its digits, no leading zero. */
  function Digits(n: nat): (d: Bytes)
    ensures |d| > 0 && AllDigits(d)
    ensures |d| > 1 ==> d[0] != Zero
    ensures n > 0 ==> d[0] != Zero
  {
    if n < 10 then [Zero + n as byte] else Digits(n / 10) + [Zero + (n % 10) as byte]
  }

  /** `%d` of an integer: a minus sign for negative values, then the digits. */
  function Show(n: int): (s: Bytes)
    ensures n < 0 ==> |s| > 1 && s[0] == Minus && AllDigits(s[1..])
    ensures 0 <= n ==> |s| > 0 && AllDigits(s)
  {
    if n < 0 then [Minus] + Digits(-n) else Digits(n)
  }

  lemma {:induction false} ValueOfDigits(n: nat)
    ensures ValueOf(Digits(n)) == n
  {
    if n >= 10 {
      ValueOfDigits(n / 10);
      var d := Digits(n);
      assert d[..|d| - 1] == Digits(n / 10);
    }
  }

  lemma {:induction false} LeadingDigitsOf(d: Bytes, rest: Bytes)
    requires AllDigits(d)
    requires rest == [] || !IsDigit(rest[0])
    ensures LeadingDigits(d + rest) == |d|
  {
    if d != [] {
      assert (d + rest)[1..] == d[1..] + rest;
      LeadingDigitsOf(d[1..], rest);
    } else {
      assert d + rest == rest;
    }
  }

  /** The digits of m, followed by text that does not start with a digit, lead with m's value. */
  lemma DigitsThenRest(m: nat, rest: Bytes)
    requires rest == [] || !IsDigit(rest[0])
    ensures var t := Digits(m) + rest;
            && LeadingDigits(t) == |Digits(m)|
            && ValueOf(t[..|Digits(m)|]) == m
            && !(t[0] == Plus || t[0] == Minus)
  {
    var d := Digits(m);
    ValueOfDigits(m);
    LeadingDigitsOf(d, rest);
    assert (d + rest)[..|d|] == d;
    assert (d + rest)[0] == d[0];
  }

  /**
   * Scanning what Show renders gives the number back, whatever non-digit text follows it:
   * every 64-bit value typed at the limit prompt is read exactly.
   */
  lemma ScanShow(n: int, rest: Bytes)
    requires Int64Min <= n <= Int64Max
    requires rest == [] || !IsDigit(rest[0])
    ensures ScanInt(Show(n) + rest) == Some(n)
  {
    if n < 0 {
      var t := Digits(-n) + rest;
      DigitsThenRest(-n, rest);
      assert Show(n) + rest == [Minus] + t;
      ScanSigned(t, |Digits(-n)|);
    } else {
      DigitsThenRest(n, rest);
      assert Show(n) + rest == Digits(n) + rest;
      ScanUnsigned(Digits(n) + rest, |Digits(n)|);
    }
  }

  /** Text starting with digits and no sign scans as the value of those digits, if it is in range. */
  lemma ScanUnsigned(t: Bytes, n: nat)
    requires 0 < n == LeadingDigits(t)
    requires !(t[0] == Plus || t[0] == Minus)
    requires ValueOf(t[..n]) <= Int64Max
    ensures ScanInt(t) == Some(ValueOf(t[..n]))
  {
  }

  /** A minus sign followed by digits scans as minus their value, if it is in range. */
  lemma ScanSigned(t: Bytes, n: nat)
    requires 0 < n == LeadingDigits(t)
    requires Int64Min <= -(ValueOf(t[..n]) as int)
    ensures ScanInt([Minus] + t) == Some(-(ValueOf(t[..n]) as int))
  {
    assert ([Minus] + t)[1..] == t;
  }

  /** Text that does not start with a digit, or with a sign and a digit, never scans. */
  lemma ScanNeedsDigit(s: Bytes)
    requires s == [] || (!IsDigit(s[0]) && !((s[0] == Plus || s[0] == Minus) && |s| > 1 && IsDigit(s[1])))
    ensures ScanInt(s) == None
  {
  }
}

=== FILE: EventLoop.dfy ===
/**
 * StartUI's event loop as an object: the loop's locals become fields, the engine is
 * shared by reference, and each terminal event is one call of Step, which follows the
 * program's chain of checks in their order, with `return` where the loop `continue`s.
 */
module EventLoop {
  import opened Text
  import opened Wrappers
  import opened Runes
  import opened Decimal
  import opened SortKeys
  import opened Monitor
  import opened Keyboard

  class UIState {
    const engine: Engine
    var waitingSortOption: bool
    var waitingLimitOption: bool
    var optionBuf: Bytes
    var viewMode: ViewMode
    var displaySubscriptions: bool
    var quit: bool

    /** The loop's state as a value. */
    function Model(): LoopState
      reads this, engine
    {
      LoopState(waitingSortOption, waitingLimitOption, optionBuf, viewMode,
                displaySubscriptions, engine.sortOpt, engine.conns, engine.displaySubs, quit)
    }

    ghost predicate Valid()
      reads this, engine
    {
      Inv(Model()) && IdleBufferEmpty(Model())
    }

    /** The loop's start: top view, no prompt, empty buffer, subscriptions hidden. */
    constructor (engine: Engine)
      requires !engine.displaySubs
      ensures this.engine == engine
      ensures Model() == Initial(engine.sortOpt, engine.conns) && Valid()
    {
      this.engine := engine;
      waitingSortOption := false;
      waitingLimitOption := false;
      optionBuf := [];
      viewMode := TopView;
      displaySubscriptions := false;
      quit := false;
    }

    /** At an open prompt, any event but Enter edits the buffer. */
    method EditBuffer(e: Event)
      modifies this
      ensures optionBuf == Edit(old(optionBuf), e)
      ensures waitingSortOption == old(waitingSortOption) && waitingLimitOption == old(waitingLimitOption)
      ensures viewMode == old(viewMode) && displaySubscriptions == old(displaySubscriptions)
      ensures quit == old(quit)
    {
      if IsKey(e) && |optionBuf| > 0 && (e.key == KeyBackspace || e.key == KeyBackspace2) {
        optionBuf := optionBuf[..|optionBuf| - 1];
      } else {
        optionBuf := optionBuf + EncodeRune(e.ch);
      }
    }

    /** Handles one terminal event. */
    method Step(e: Event)
      requires Valid() && !quit
      modifies this, engine
      ensures Valid()
      ensures Model() == Next(old(Model()), e)
      ensures engine.uri == old(engine.uri) && engine.delay == old(engine.delay)
    {
      if waitingSortOption {
        if IsEnter(e) {
          match Resolve(optionBuf) {
            case Some(k) =>
              engine.sortOpt := k;
            case None =>
              // The rejecting goroutine, taken as one step: it closes the prompt and,
              // after showing the error, empties the buffer.
              waitingSortOption := false;
              optionBuf := [];
              return;
          }
          waitingSortOption := false;
          optionBuf := [];
          return;
        }
        EditBuffer(e);
      }

      if waitingLimitOption {
        if IsEnter(e) {
          match ScanInt(optionBuf) {
            case Some(n) =>
              engine.conns := n;
            case None =>
          }
          waitingLimitOption := false;
          optionBuf := [];
          return;
        }
        EditBuffer(e);
      }

      if IsKey(e) && (e.ch == 'q' as Rune || e.key == KeyCtrlC) {
        quit := true;
        return;
      }

      if IsKey(e) && e.ch == 's' as Rune && !(waitingLimitOption || waitingSortOption) {
        if displaySubscriptions {
          displaySubscriptions := false;
          engine.displaySubs := false;
        } else {
          displaySubscriptions := true;
          engine.displaySubs := true;
        }
      }

      if IsKey(e) && viewMode == HelpView {
        viewMode := TopView;
        return;
      }

      if IsKey(e) && e.ch == 'o' as Rune && !waitingLimitOption && viewMode == TopView {
        waitingSortOption := true;
      }

      if IsKey(e) && e.ch == 'n' as Rune && !waitingSortOption && viewMode == TopView {
        waitingLimitOption := true;
      }

      if IsKey(e) && (e.ch == '?' as Rune || e.ch == 'h' as Rune) && !(waitingSortOption || waitingLimitOption) {
        if viewMode == TopView {
          optionBuf := [];
        }
        viewMode := HelpView;
        waitingLimitOption := false;
        waitingSortOption := false;
      }
      // A resize only re-aligns and redraws the screen.
    }

    /** The `for { select }` loop over the events that arrive, until the program quits or they run out. */
    method Loop(events: seq<Event>)
      requires Valid() && !quit
      modifies this, engine
      ensures Valid()
      ensures Model() == Run(old(Model()), events)
      ensures engine.uri == old(engine.uri) && engine.delay == old(engine.delay)
    {
      var i := 0;
      while i < |events| && !quit
        invariant 0 <= i <= |events|
        invariant Valid()
        invariant Run(old(Model()), events) == Run(Model(), events[i..])
        invariant engine.uri == old(engine.uri) && engine.delay == old(engine.delay)
      {
        assert events[i..][1..] == events[i + 1..];
        Step(events[i]);
        i := i + 1;
      }
    }
  }
}

=== FILE: Formatter.dfy ===
/**
 * generateParagraph: the server vitals, the column header chosen by the subscription
 * toggle, and one row per connection after sorting the connection list in place by the
 * engine's sort option. Column padding is not modelled: the paragraph is kept as cells.
 */
module Formatter {
  import opened Text
  import opened Wrappers
  import opened Decimal
  import opened SortKeys
  import opened Monitor

  datatype ServerInfo = ServerInfo(version: Bytes)

  /** The server-wide counters of a snapshot; `info` is nil before the first real snapshot. */
  datatype Varz = Varz(
    info: Option<ServerInfo>, uptime: Bytes, cpu: real, mem: int,
    inMsgs: int, outMsgs: int, inBytes: int, outBytes: int, slowConsumers: int)

  datatype Rates = Rates(inMsgsRate: real, outMsgsRate: real, inBytesRate: real, outBytesRate: real)

  /** One connection record of a snapshot. */
  datatype ConnInfo = ConnInfo(
    cid: int, ip: Bytes, port: int, name: Bytes, numSubs: int, pending: int,
    inMsgs: int, outMsgs: int, inBytes: int, outBytes: int,
    lang: Bytes, version: Bytes, uptime: Bytes, lastActivity: Bytes, subs: seq<Bytes>)

  /** A snapshot as the paragraph receives it; its connection list is sorted in place. */
  class Stats {
    var varz: Varz
    var numConns: int
    var conns: array<ConnInfo>
    var rates: Rates

    constructor (varz: Varz, numConns: int, conns: array<ConnInfo>, rates: Rates)
      ensures this.varz == varz && this.numConns == numConns && this.conns == conns && this.rates == rates
    {
      this.varz := varz;
      this.numConns := numConns;
      this.conns := conns;
      this.rates := rates;
    }
  }

  /**
   * One formatted value: `%s` of text, `%d` of an integer, a byte size rendered by Psize
   * (whose body is not part of this model), or `%.1f` of a rate.
   */
  datatype Cell = Str(s: Bytes) | Int(n: int) | Size(size: int) | Fixed1(x: real)

  datatype Paragraph = Paragraph(info: seq<Cell>, numConns: int, header: seq<string>, rows: seq<seq<Cell>>)

  /** Go's `int64(x)` of a non-overflowing float: truncation toward zero. */
  function Truncate(x: real): (n: int)
    ensures 0.0 <= x ==> 0 <= n && n as real <= x < n as real + 1.0
    ensures x <= 0.0 ==> n <= 0 && n as real - 1.0 < x <= n as real
  {
    if x >= 0.0 then x.Floor else -((-x).Floor)
  }

  /** The verbs of a format string that take an argument: `%s` (any width), `%d` and `%.1f`. */
  datatype Verb = VerbS | VerbD | VerbF1

  /** The verb a formatted value is printed with; Psize returns a string, printed with `%s`. */
  function VerbOf(cell: Cell): Verb {
    match cell
    case Str(_) => VerbS
    case Int(_) => VerbD
    case Size(_) => VerbS
    case Fixed1(_) => VerbF1
  }

  /** The integer a cell carries, if it carries one. */
  function Value(cell: Cell): Option<int> {
    match cell
    case Int(n) => Some(n)
    case Size(n) => Some(n)
    case _ => None
  }

  /** The argument verbs of the vitals format string, in order. */
  const InfoVerbs: seq<Verb> :=
    [VerbS, VerbS, VerbF1, VerbS, VerbD, VerbS, VerbS, VerbF1, VerbS, VerbS, VerbS, VerbF1, VerbS]

  /** The argument verbs of the connection-row format string; `%s` is appended for the subscriptions. */
  function RowVerbs(displaySubs: bool): seq<Verb> {
    [VerbS, VerbD, VerbS, VerbD, VerbS, VerbS, VerbS, VerbS, VerbS, VerbS, VerbS, VerbS, VerbS]
    + (if displaySubs then [VerbS] else [])
  }

  /**
   * The values of the vitals block: one per verb of the format string, each of the kind its
   * verb prints; the version is empty while the snapshot has no server info, and the byte
   * rates are the rates truncated to integers.
   */
  function Info(varz: Varz, rates: Rates): (r: seq<Cell>)
    ensures |r| == |InfoVerbs|
    ensures forall i :: 0 <= i < |r| ==> VerbOf(r[i]) == InfoVerbs[i]
    ensures varz.info.None? ==> r[0] == Str([])
    ensures varz.info.Some? ==> r[0] == Str(varz.info.value.version)
    ensures Value(r[8]) == Some(Truncate(rates.inBytesRate)) && Value(r[12]) == Some(Truncate(rates.outBytesRate))
  {
    var version := match varz.info case Some(i) => i.version case None => [];
    [ Str(version), Str(varz.uptime),
      Fixed1(varz.cpu), Size(varz.mem), Int(varz.slowConsumers),
      Size(varz.inMsgs), Size(varz.inBytes), Fixed1(rates.inMsgsRate), Size(Truncate(rates.inBytesRate)),
      Size(varz.outMsgs), Size(varz.outBytes), Fixed1(rates.outMsgsRate), Size(Truncate(rates.outBytesRate)) ]
  }

  const SubscriptionsTitle: string := "SUBSCRIPTIONS"

  /** The column titles; the subscriptions column exists only while subscriptions are displayed. */
  function Header(displaySubs: bool): (h: seq<string>)
    ensures |h| == if displaySubs then 14 else 13
    ensures SubscriptionsTitle in h <==> displaySubs
  {
    ["HOST", "CID", "NAME", "SUBS", "PENDING", "MSGS_TO", "MSGS_FROM", "BYTES_TO", "BYTES_FROM",
     "LANG", "VERSION", "UPTIME", "LAST ACTIVITY"]
    + (if displaySubs then [SubscriptionsTitle] else [])
  }

  /** One connection's row; the subscription subjects are joined with ", ". */
  function Row(c: ConnInfo, displaySubs: bool): (r: seq<Cell>)
    ensures |r| == |Header(displaySubs)| == |RowVerbs(displaySubs)|
  {
    [ Str(c.ip + Ascii(":") + Show(c.port)), Int(c.cid), Str(c.name), Int(c.numSubs),
      Size(c.pending), Size(c.outMsgs), Size(c.inMsgs), Size(c.outBytes), Size(c.inBytes),
      Str(c.lang), Str(c.version), Str(c.uptime), Str(c.lastActivity) ]
    + (if displaySubs then [Str(Join(c.subs, CommaSpace()))] else [])
  }

  /** The field each sort option compares (the comparators ByCid, BySubs, ... of the util package). */
  function Key(k: SortKey, c: ConnInfo): int {
    match k
    case ByCid => c.cid
    case BySubs => c.numSubs
    case ByPending => c.pending
    case ByOutMsgs => c.outMsgs
    case ByInMsgs => c.inMsgs
    case ByOutBytes => c.outBytes
    case ByInBytes => c.inBytes
  }

  /** The column of a row that shows the field a sort option compares. */
  function SortColumn(k: SortKey): nat {
    match k
    case ByCid => 1
    case BySubs => 3
    case ByPending => 4
    case ByOutMsgs => 5
    case ByInMsgs => 6
    case ByOutBytes => 7
    case ByInBytes => 8
  }

  /** Position in the sorted order: cid ascending, every other field descending (sort.Reverse). */
  function Rank(k: SortKey, c: ConnInfo): int {
    if k == ByCid then Key(k, c) else -Key(k, c)
  }

  /** The `Less` that sort.Sort is handed for the option. */
  predicate Less(k: SortKey, a: ConnInfo, b: ConnInfo) {
    Rank(k, a) < Rank(k, b)
  }

  predicate Ordered(s: seq<ConnInfo>, k: SortKey) {
    forall i, j :: 0 <= i < j < |s| ==> Rank(k, s[i]) <= Rank(k, s[j])
  }

  /** The first `n` connections are in display order. */
  predicate OrderedPrefix(s: seq<ConnInfo>, k: SortKey, n: nat)
    requires n <= |s|
  {
    forall a, b :: 0 <= a < b < n ==> Rank(k, s[a]) <= Rank(k, s[b])
  }

  /** sort.Sort with the option's Less, as an insertion sort over the array. */
  method SortConnections(conns: array<ConnInfo>, k: SortKey)
    modifies conns
    ensures Ordered(conns[..], k)
    ensures multiset(conns[..]) == multiset(old(conns[..]))
  {
    var i := 0;
    while i < conns.Length
      invariant 0 <= i <= conns.Length
      invariant OrderedPrefix(conns[..], k, i)
      invariant multiset(conns[..]) == multiset(old(conns[..]))
    {
      InsertLast(conns, k, i);
      i := i + 1;
    }
  }

  /** One pass of the insertion sort: swaps `conns[i]` down until the prefix `[0, i]` is ordered. */
  method InsertLast(conns: array<ConnInfo>, k: SortKey, i: nat)
    requires i < conns.Length
    requires OrderedPrefix(conns[..], k, i)
    modifies conns
    ensures OrderedPrefix(conns[..], k, i + 1)
    ensures multiset(conns[..]) == multiset(old(conns[..]))
  {
    var j := i;
    while j > 0 && Less(k, conns[j], conns[j - 1])
      invariant 0 <= j <= i
      invariant OrderedAround(conns[..], k, i, j)
      invariant multiset(conns[..]) == multiset(old(conns[..]))
    {
      ghost var before := conns[..];
      conns[j - 1], conns[j] := conns[j], conns[j - 1];
      assert conns[..] == before[j - 1 := before[j]][j := before[j - 1]];
      SwapDown(before, k, i, j);
      j := j - 1;
    }
    SettledPrefix(conns[..], k, i, j);
  }

  /**
   * The state of an insertion pass over `[0, n]` whose moving element sits at `j`: the
   * other elements are in order, and the moving one ranks below all it has passed.
   */
  predicate OrderedAround(s: seq<ConnInfo>, k: SortKey, n: nat, j: nat)
    requires j <= n < |s|
  {
    && (forall a, b :: 0 <= a < b <= n && a != j && b != j ==> Rank(k, s[a]) <= Rank(k, s[b]))
    && (forall b :: j < b <= n ==> Rank(k, s[j]) < Rank(k, s[b]))
  }

  /** Swapping the moving element with a higher-ranked predecessor keeps the pass's state. */
  lemma SwapDown(s: seq<ConnInfo>, k: SortKey, n: nat, j: nat)
    requires 0 < j <= n < |s|
    requires OrderedAround(s, k, n, j)
    requires Rank(k, s[j]) < Rank(k, s[j - 1])
    ensures OrderedAround(s[j - 1 := s[j]][j := s[j - 1]], k, n, j - 1)
  {
  }

  /** A pass stops once the moving element is first or no lower than its predecessor. */
  lemma SettledPrefix(s: seq<ConnInfo>, k: SortKey, n: nat, j: nat)
    requires j <= n < |s|
    requires OrderedAround(s, k, n, j)
    requires j == 0 || Rank(k, s[j - 1]) <= Rank(k, s[j])
    ensures OrderedPrefix(s, k, n + 1)
  {
  }

  /** The rows of a connection list, in its order. */
  function Rows(conns: seq<ConnInfo>, displaySubs: bool): (rows: seq<seq<Cell>>)
    ensures |rows| == |conns|
  {
    seq(|conns|, i requires 0 <= i < |conns| => Row(conns[i], displaySubs))
  }

  /** The paragraph for a snapshot whose connection list is already in display order. */
  function Layout(varz: Varz, rates: Rates, numConns: int, conns: seq<ConnInfo>, displaySubs: bool): Paragraph {
    Paragraph(Info(varz, rates), numConns, Header(displaySubs), Rows(conns, displaySubs))
  }

  /** The loop over the sorted connections that formats one line each. */
  method FormatRows(conns: array<ConnInfo>, displaySubs: bool) returns (rows: seq<seq<Cell>>)
    ensures rows == Rows(conns[..], displaySubs)
  {
    rows := [];
    for i := 0 to conns.Length
      invariant |rows| == i
      invariant forall j :: 0 <= j < i ==> rows[j] == Row(conns[j], displaySubs)
    {
      rows := rows + [Row(conns[i], displaySubs)];
    }
  }

  /**
   * generateParagraph: sorts the snapshot's connections by the engine's option and lays
   * out the vitals, the header and one row per connection in the sorted order.
   */
  method GenerateParagraph(engine: Engine, stats: Stats) returns (text: Paragraph)
    modifies stats.conns
    ensures Ordered(stats.conns[..], engine.sortOpt)
    ensures multiset(stats.conns[..]) == multiset(old(stats.conns[..]))
    ensures text == Layout(stats.varz, stats.rates, stats.numConns, stats.conns[..], engine.displaySubs)
  {
    var info := Info(stats.varz, stats.rates);
    var header := Header(engine.displaySubs);
    SortConnections(stats.conns, engine.sortOpt);
    var rows := FormatRows(stats.conns, engine.displaySubs);
    text := Paragraph(info, stats.numConns, header, rows);
  }
}

=== FILE: FormatterProperties.dfy ===
/** What the paragraph promises: its column set, the order of its rows, and the placeholder snapshot. */
module FormatterProperties {
  import opened Text
  import opened Wrappers
  import opened Decimal
  import opened SortKeys
  import opened Formatter

  /** Turning the subscription display on changes nothing but a trailing column of joined subjects. */
  lemma ToggleAddsColumn(varz: Varz, rates: Rates, numConns: int, conns: seq<ConnInfo>)
    ensures var off := Layout(varz, rates, numConns, conns, false);
            var on := Layout(varz, rates, numConns, conns, true);
            && on.info == off.info && on.numConns == off.numConns
            && on.header == off.header + [SubscriptionsTitle]
            && |on.rows| == |off.rows| == |conns|
            && forall i :: 0 <= i < |conns| ==> on.rows[i] == off.rows[i] + [Str(Join(conns[i].subs, CommaSpace()))]
  {
  }

  /** The column a sort option is named after shows exactly the field that option compares. */
  lemma SortColumnShowsKey(k: SortKey, c: ConnInfo, displaySubs: bool)
    ensures SortColumn(k) < |Row(c, displaySubs)|
    ensures Value(Row(c, displaySubs)[SortColumn(k)]) == Some(Key(k, c))
  {
  }

  /** ASCII upper case: `a`..`z` become `A`..`Z`, every other character stays. */
  function Upper(t: string): string {
    seq(|t|, i requires 0 <= i < |t| => if 'a' <= t[i] <= 'z' then (t[i] as int - 32) as char else t[i])
  }

  /** The column a sort option shows its field in is titled with the option's token in upper case. */
  lemma SortColumnTitle(k: SortKey, displaySubs: bool)
    ensures SortColumn(k) < |Header(displaySubs)|
    ensures Header(displaySubs)[SortColumn(k)] == Upper(Token(k))
  {
  }

  /** Every value of a row is of the kind its verb in the row format string prints. */
  lemma RowMatchesFormat(c: ConnInfo, displaySubs: bool)
    ensures forall i :: 0 <= i < |Row(c, displaySubs)| ==> VerbOf(Row(c, displaySubs)[i]) == RowVerbs(displaySubs)[i]
  {
  }

  /** The host cell is the address, a colon, and the port in decimal that scans back to the port. */
  lemma HostCell(c: ConnInfo, displaySubs: bool)
    requires Int64Min <= c.port <= Int64Max
    ensures var host := Row(c, displaySubs)[0];
            && host.Str?
            && |host.s| > |c.ip| + 1
            && host.s[..|c.ip|] == c.ip
            && host.s[|c.ip|] == ':' as int as byte
            && ScanInt(host.s[|c.ip| + 1..]) == Some(c.port)
  {
    var colon := Ascii(":");
    var digits := Show(c.port);
    var s := c.ip + colon + digits;
    assert Row(c, displaySubs)[0] == Str(s);
    assert s[|c.ip| + 1..] == digits;
    assert s[..|c.ip|] == c.ip;
    ScanShow(c.port, []);
    assert digits + [] == digits;
  }

  /**
   * Read along the rows, an ordered list runs by id upwards, and by any other option's
   * field downwards.
   */
  lemma OrderDirection(s: seq<ConnInfo>, k: SortKey, i: int, j: int)
    requires Ordered(s, k)
    requires 0 <= i < j < |s|
    ensures k == ByCid ==> s[i].cid <= s[j].cid
    ensures k != ByCid ==> Key(k, s[i]) >= Key(k, s[j])
  {
    assert Rank(k, s[i]) <= Rank(k, s[j]);
  }

  /** The value displayed in a row's sort column follows that direction through the whole paragraph. */
  lemma DisplayedOrder(varz: Varz, rates: Rates, numConns: int, conns: seq<ConnInfo>, displaySubs: bool,
                       k: SortKey, i: int, j: int)
    requires Ordered(conns, k)
    requires 0 <= i < j < |conns|
    ensures var rows := Layout(varz, rates, numConns, conns, displaySubs).rows;
            && SortColumn(k) < |rows[i]| && SortColumn(k) < |rows[j]|
            && Value(rows[i][SortColumn(k)]).Some? && Value(rows[j][SortColumn(k)]).Some?
            && (k == ByCid ==> Value(rows[i][SortColumn(k)]).value <= Value(rows[j][SortColumn(k)]).value)
            && (k != ByCid ==> Value(rows[i][SortColumn(k)]).value >= Value(rows[j][SortColumn(k)]).value)
  {
    SortColumnShowsKey(k, conns[i], displaySubs);
    SortColumnShowsKey(k, conns[j], displaySubs);
    OrderDirection(conns, k, i, j);
  }

  /** Two connections with 500 and 1500 pending bytes, sorted by pending, come out as [1500, 500]. */
  lemma PendingScenario(a: ConnInfo, b: ConnInfo, s: seq<ConnInfo>)
    requires a.pending == 500 && b.pending == 1500
    requires multiset(s) == multiset{a, b}
    requires Ordered(s, ByPending)
    ensures s == [b, a]
  {
    assert |s| == |multiset(s)| == 2;
    assert s == [s[0], s[1]];
    assert s[0] in multiset(s) && s[1] in multiset(s);
    assert multiset(s) == multiset{s[0], s[1]};
    assert Rank(ByPending, s[0]) <= Rank(ByPending, s[1]);
  }

  predicate ZeroCell(cell: Cell) {
    match cell
    case Str(s) => s == []
    case Int(n) => n == 0
    case Size(n) => n == 0
    case Fixed1(x) => x == 0.0
  }

  /** The placeholder shown before the first snapshot: nil info, zero counters, no connections. */
  const EmptyVarz := Varz(None, [], 0.0, 0, 0, 0, 0, 0, 0)
  const EmptyRates := Rates(0.0, 0.0, 0.0, 0.0)

  /**
   * The placeholder snapshot renders zero values, the header without the subscriptions
   * column, and no rows.
   */
  lemma PlaceholderParagraph(conns: array<ConnInfo>)
    requires conns.Length == 0
    ensures var p := Layout(EmptyVarz, EmptyRates, 0, conns[..], false);
            && |p.info| == 13 && (forall i :: 0 <= i < |p.info| ==> ZeroCell(p.info[i]))
            && p.numConns == 0
            && p.header == Header(false) && SubscriptionsTitle !in p.header
            && p.rows == []
  {
  }
}

=== FILE: Keyboard.dfy ===
/**
 * The dashboard's keyboard handling as a function of the loop's state and one terminal
 * event: the two prompts that capture a value (sort option after `o`, connection limit
 * after `n`), the subscription toggle `s`, the help view, and quitting.
 *
 * Next is a reference definition organised by mode; the event loop in EventLoop.dfy
 * follows the program's own chain of checks and is proved to agree with it.
 */
module Keyboard {
  import opened Text
  import opened Wrappers
  import opened Runes
  import opened Decimal
  import opened SortKeys

  /** termui's event types: key presses, terminal resizes, and the rest (mouse, errors). */
  datatype EventType = KeyEvent | ResizeEvent | OtherEvent

  /** The special keys the loop tests for; a printable key press carries OtherKey. */
  datatype Key = KeyEnter | KeyBackspace | KeyBackspace2 | KeyCtrlC | OtherKey

  /** A terminal event: its type, its special key, and its character (0 when there is none). */
  datatype Event = Event(kind: EventType, key: Key, ch: Rune)

  datatype ViewMode = TopView | HelpView

  /**
   * The loop's locals and the engine fields it writes. `quit` records that the program
   * has run its clean exit (after which no further event is handled).
   */
  datatype LoopState = LoopState(
    waitingSortOption: bool,
    waitingLimitOption: bool,
    optionBuf: Bytes,
    viewMode: ViewMode,
    displaySubscriptions: bool,
    sortOpt: SortKey,     // engine.SortOpt
    conns: int,           // engine.Conns
    displaySubs: bool,    // engine.DisplaySubs
    quit: bool)

  /** The state when the loop starts: no prompt, empty buffer, top view, subscriptions hidden. */
  function Initial(sortOpt: SortKey, conns: int): (s: LoopState)
    ensures Inv(s) && IdleBufferEmpty(s) && !s.quit
    ensures !Awaiting(s) && s.optionBuf == [] && s.viewMode == TopView
    ensures !s.displaySubscriptions && !s.displaySubs
    ensures s.sortOpt == sortOpt && s.conns == conns
  {
    LoopState(false, false, [], TopView, false, sortOpt, conns, false, false)
  }

  function Press(c: Rune): Event { Event(KeyEvent, OtherKey, c) }
  function EnterKey(): Event { Event(KeyEvent, KeyEnter, 0) }

  predicate IsKey(e: Event) { e.kind == KeyEvent }
  predicate IsEnter(e: Event) { IsKey(e) && e.key == KeyEnter }
  predicate IsBackspace(e: Event) { IsKey(e) && (e.key == KeyBackspace || e.key == KeyBackspace2) }
  predicate IsQuit(e: Event) { IsKey(e) && (e.ch == 'q' as Rune || e.key == KeyCtrlC) }
  predicate IsChar(e: Event, c: char) { IsKey(e) && e.ch == c as Rune }

  predicate Awaiting(s: LoopState) { s.waitingSortOption || s.waitingLimitOption }

  /**
   * The loop's invariants: at most one prompt is open, the help view has no prompt open,
   * and the loop's own subscription flag agrees with the engine's.
   */
  predicate Inv(s: LoopState) {
    && !(s.waitingSortOption && s.waitingLimitOption)
    && (s.viewMode == HelpView ==> !Awaiting(s))
    && s.displaySubscriptions == s.displaySubs
  }

  /** With no prompt open the buffer holds nothing. */
  predicate IdleBufferEmpty(s: LoopState) {
    !Awaiting(s) ==> s.optionBuf == []
  }

  /**
   * How an open prompt's buffer changes on any event but Enter: a backspace drops the
   * last byte if there is one; every other event, a resize included, appends the UTF-8
   * bytes of its character (so a backspace on an empty buffer appends a NUL byte).
   */
  function Edit(buf: Bytes, e: Event): Bytes {
    if IsBackspace(e) && |buf| > 0 then buf[..|buf| - 1] else buf + EncodeRune(e.ch)
  }

  /** Enter at the sort prompt: a recognised option is applied; either way the prompt closes. */
  function CommitSort(s: LoopState): LoopState {
    var sortOpt := match Resolve(s.optionBuf) case Some(k) => k case None => s.sortOpt;
    s.(sortOpt := sortOpt, waitingSortOption := false, optionBuf := [])
  }

  /** Enter at the limit prompt: a scanned integer is applied; either way the prompt closes. */
  function CommitLimit(s: LoopState): LoopState {
    var conns := match ScanInt(s.optionBuf) case Some(n) => n case None => s.conns;
    s.(conns := conns, waitingLimitOption := false, optionBuf := [])
  }

  /** `s` sets both subscription flags to the opposite of the loop's own flag. */
  function ToggleSubs(s: LoopState, e: Event): LoopState {
    if IsChar(e, 's') then
      s.(displaySubscriptions := !s.displaySubscriptions, displaySubs := !s.displaySubscriptions)
    else s
  }

  /** The effect of one terminal event on the loop, by mode. */
  function Next(s: LoopState, e: Event): (t: LoopState)
    requires Inv(s) && !s.quit
    ensures Inv(t)
    ensures IdleBufferEmpty(s) ==> IdleBufferEmpty(t)
  {
    if s.waitingSortOption && IsEnter(e) then CommitSort(s)
    else if s.waitingLimitOption && IsEnter(e) then CommitLimit(s)
    else
      var edited := if Awaiting(s) then s.(optionBuf := Edit(s.optionBuf, e)) else s;
      if IsQuit(e) then edited.(quit := true)
      else if !IsKey(e) || Awaiting(s) then edited
      else if s.viewMode == HelpView then ToggleSubs(s, e).(viewMode := TopView)
      else if IsChar(e, 's') then ToggleSubs(s, e)
      else if IsChar(e, 'o') then s.(waitingSortOption := true)
      else if IsChar(e, 'n') then s.(waitingLimitOption := true)
      else if IsChar(e, 'h') || IsChar(e, '?') then s.(viewMode := HelpView, optionBuf := [])
      else s
  }

  /** The loop over a sequence of events; nothing is handled once the program has quit. */
  function Run(s: LoopState, events: seq<Event>): (t: LoopState)
    requires Inv(s)
    ensures Inv(t)
    decreases |events|
  {
    if events == [] || s.quit then s else Run(Next(s, events[0]), events[1..])
  }
}

=== FILE: KeyboardProperties.dfy ===
/** What the keyboard handling promises, one event at a time and over typed sequences. */
module KeyboardProperties {
  import opened Text
  import opened Wrappers
  import opened Runes
  import opened Decimal
  import opened SortKeys
  import opened Keyboard

  /**
   * Enter at the sort prompt applies the buffer only when it is one of the seven options;
   * in every case the prompt closes with an empty buffer and nothing else changes.
   */
  lemma SortCommit(s: LoopState, e: Event)
    requires Inv(s) && !s.quit && s.waitingSortOption && IsEnter(e)
    ensures var t := Next(s, e);
      && (Resolve(s.optionBuf).Some? ==> TokenBytes(t.sortOpt) == s.optionBuf)
      && (Resolve(s.optionBuf).None? ==> t.sortOpt == s.sortOpt)
      && t == s.(sortOpt := t.sortOpt, waitingSortOption := false, optionBuf := [])
  {
  }

  /**
   * Enter at the limit prompt changes the limit only when the buffer scans as an integer;
   * in every case the prompt closes with an empty buffer and nothing else changes.
   */
  lemma LimitCommit(s: LoopState, e: Event)
    requires Inv(s) && !s.quit && s.waitingLimitOption && IsEnter(e)
    ensures var t := Next(s, e);
      && (ScanInt(s.optionBuf).Some? ==> t.conns == ScanInt(s.optionBuf).value)
      && (ScanInt(s.optionBuf).None? ==> t.conns == s.conns)
      && t == s.(conns := t.conns, waitingLimitOption := false, optionBuf := [])
  {
  }

  /**
   * At an open prompt every event but Enter only edits the buffer (and may quit): a
   * backspace removes exactly the last byte of a non-empty buffer, anything else appends
   * the event's character.
   */
  lemma PromptEdit(s: LoopState, e: Event)
    requires Inv(s) && !s.quit && Awaiting(s) && !IsEnter(e)
    ensures var t := Next(s, e);
      && (IsBackspace(e) && s.optionBuf != [] ==> t.optionBuf + [s.optionBuf[|s.optionBuf| - 1]] == s.optionBuf)
      && (!(IsBackspace(e) && s.optionBuf != []) ==> t.optionBuf == s.optionBuf + EncodeRune(e.ch))
      && t == s.(optionBuf := t.optionBuf, quit := IsQuit(e))
  {
  }

  /** The program quits exactly on `q` or Ctrl-C, from every mode and view, unless Enter closed a prompt first. */
  lemma QuitAnywhere(s: LoopState, e: Event)
    requires Inv(s) && !s.quit
    ensures Next(s, e).quit <==> IsQuit(e) && !(Awaiting(s) && IsEnter(e))
  {
  }

  /**
   * The subscription flags change exactly on `s` with no prompt open (in either view),
   * and they change together.
   */
  lemma ToggleOnlyWhenIdle(s: LoopState, e: Event)
    requires Inv(s) && !s.quit
    ensures var t := Next(s, e);
      && (t.displaySubs != s.displaySubs <==> IsChar(e, 's') && !Awaiting(s) && !IsQuit(e))
      && t.displaySubscriptions == t.displaySubs
  {
  }

  /** Any key but quit leaves the help view for the top view, changing nothing else but the `s` toggle. */
  lemma HelpDismiss(s: LoopState, e: Event)
    requires Inv(s) && !s.quit && s.viewMode == HelpView && IsKey(e) && !IsQuit(e)
    ensures Next(s, e) == ToggleSubs(s, e).(viewMode := TopView)
  {
  }

  /**
   * The help view opens exactly on `h` or `?` in the top view with no prompt open; it
   * clears the buffer and leaves no prompt open.
   */
  lemma HelpEntry(s: LoopState, e: Event)
    requires Inv(s) && !s.quit
    ensures var t := Next(s, e);
      && (s.viewMode == TopView && t.viewMode == HelpView <==>
            s.viewMode == TopView && !Awaiting(s) && !IsQuit(e) && (IsChar(e, 'h') || IsChar(e, '?')))
      && (s.viewMode == TopView && t.viewMode == HelpView ==>
            t == s.(viewMode := HelpView, optionBuf := []))
  {
  }

  /**
   * A prompt opens exactly on `o` or `n` in the top view with none open, and opening it
   * keeps the buffer as it was.
   */
  lemma PromptEntry(s: LoopState, e: Event)
    requires Inv(s) && !s.quit
    ensures var t := Next(s, e);
      && (!Awaiting(s) && Awaiting(t) <==>
            s.viewMode == TopView && !Awaiting(s) && !IsQuit(e) && (IsChar(e, 'o') || IsChar(e, 'n')))
      && (!Awaiting(s) && t.waitingSortOption ==> t == s.(waitingSortOption := true))
      && (!Awaiting(s) && t.waitingLimitOption ==> t == s.(waitingLimitOption := true))
  {
  }

  /** Events that are not key presses (resizes and the rest) change nothing outside an open prompt's buffer. */
  lemma NonKeyEvent(s: LoopState, e: Event)
    requires Inv(s) && !s.quit && !IsKey(e)
    ensures Next(s, e) == if Awaiting(s) then s.(optionBuf := s.optionBuf + EncodeRune(e.ch)) else s
  {
  }

  /** The loop over a concatenation is the loop over the first part followed by the loop over the second. */
  lemma {:induction false} RunAppend(s: LoopState, a: seq<Event>, b: seq<Event>)
    requires Inv(s)
    ensures Run(s, a + b) == Run(Run(s, a), b)
    decreases |a|
  {
    if a == [] {
      assert a + b == b;
    } else if !s.quit {
      assert (a + b)[0] == a[0] && (a + b)[1..] == a[1..] + b;
      RunAppend(Next(s, a[0]), a[1..], b);
    }
  }

  /** Every state the loop reaches from its start keeps the invariants and an idle empty buffer. */
  lemma {:induction false} RunKeepsIdleBufferEmpty(s: LoopState, events: seq<Event>)
    requires Inv(s) && IdleBufferEmpty(s)
    ensures IdleBufferEmpty(Run(s, events))
    decreases |events|
  {
    if events != [] && !s.quit {
      RunKeepsIdleBufferEmpty(Next(s, events[0]), events[1..]);
    }
  }

  /**
   * A key the operator types as a character: printable ASCII other than space, and not `q`.
   * Control bytes are left out, since terminals deliver Enter, Backspace and Ctrl-C as keys.
   */
  predicate PrintableKey(b: byte) {
    0x20 < b < 0x7F && b as int != 'q' as int
  }

  /** Text the operator can type at a prompt without side effects. */
  predicate Typeable(w: Bytes) {
    forall i :: 0 <= i < |w| ==> PrintableKey(w[i])
  }

  /** Pressing the keys of w one after another. */
  function Typing(w: Bytes): (es: seq<Event>)
    ensures |es| == |w|
  {
    if w == [] then [] else [Press(w[0] as int as Rune)] + Typing(w[1..])
  }

  /** Typing w presses the key of each byte of w, in order. */
  lemma {:induction false} TypingPresses(w: Bytes)
    ensures forall i :: 0 <= i < |w| ==> Typing(w)[i] == Press(w[i] as int as Rune)
    decreases |w|
  {
    if w != [] {
      TypingPresses(w[1..]);
      forall i | 0 < i < |w|
        ensures Typing(w)[i] == Press(w[i] as int as Rune)
      {
        assert Typing(w)[i] == Typing(w[1..])[i - 1];
      }
    }
  }

  /** At an open prompt, one printable key appends its byte to the buffer and does nothing else. */
  lemma PressAtPrompt(s: LoopState, b: byte)
    requires Inv(s) && !s.quit && Awaiting(s) && PrintableKey(b)
    ensures Next(s, Press(b as int as Rune)) == s.(optionBuf := s.optionBuf + [b])
  {
    assert EncodeRune(b as int as Rune) == [b];
  }

  /** At an open prompt, typing ASCII text without `q` appends exactly that text to the buffer. */
  lemma {:induction false} TypeIntoPrompt(s: LoopState, w: Bytes)
    requires Inv(s) && !s.quit && Awaiting(s) && Typeable(w)
    ensures Run(s, Typing(w)) == s.(optionBuf := s.optionBuf + w)
    decreases |w|
  {
    if w == [] {
      assert s.optionBuf + w == s.optionBuf;
    } else {
      var s1 := s.(optionBuf := s.optionBuf + [w[0]]);
      TypeFirstByte(s, w);
      TypeIntoPrompt(s1, w[1..]);
      assert s1.optionBuf + w[1..] == s.optionBuf + w;
      assert s1.(optionBuf := s1.optionBuf + w[1..]) == s.(optionBuf := s.optionBuf + w);
    }
  }

  lemma TypeFirstByte(s: LoopState, w: Bytes)
    requires Inv(s) && !s.quit && Awaiting(s) && Typeable(w) && w != []
    ensures Typeable(w[1..])
    ensures Run(s, Typing(w)) == Run(s.(optionBuf := s.optionBuf + [w[0]]), Typing(w[1..]))
  {
    PressAtPrompt(s, w[0]);
    assert Typing(w) == [Press(w[0] as int as Rune)] + Typing(w[1..]);
    RunCons(s, Press(w[0] as int as Rune), Typing(w[1..]));
  }

  lemma RunCons(s: LoopState, e: Event, rest: seq<Event>)
    requires Inv(s) && !s.quit
    ensures Run(s, [e] + rest) == Run(Next(s, e), rest)
  {
    assert ([e] + rest)[1..] == rest;
  }

  /** The keys `o`, then the text w, then Enter. */
  function SortCommand(w: Bytes): seq<Event> {
    [Press('o' as Rune)] + Typing(w) + [EnterKey()]
  }

  /** The keys `n`, then the text w, then Enter. */
  function LimitCommand(w: Bytes): seq<Event> {
    [Press('n' as Rune)] + Typing(w) + [EnterKey()]
  }

  /** The command surface's `o<option><Enter>`, from the top view with no prompt open, run to the end. */
  lemma {:induction false} TypedSortCommand(s: LoopState, w: Bytes)
    requires Inv(s) && !s.quit && !Awaiting(s) && s.optionBuf == [] && s.viewMode == TopView
    requires Typeable(w)
    ensures Run(s, SortCommand(w)) == match Resolve(w) case Some(k) => s.(sortOpt := k) case None => s
  {
    var open := s.(waitingSortOption := true);
    var typed := open.(optionBuf := w);
    assert Next(s, Press('o' as Rune)) == open;
    RunAppend(s, [Press('o' as Rune)] + Typing(w), [EnterKey()]);
    RunCons(s, Press('o' as Rune), Typing(w));
    TypeIntoPrompt(open, w);
    assert open.optionBuf + w == w;
    assert Run(s, [Press('o' as Rune)] + Typing(w)) == typed;
    RunCons(typed, EnterKey(), []);
    assert [EnterKey()] + [] == [EnterKey()];
  }

  /** Typing an option's own token after `o` selects that option. */
  lemma TypedSortToken(s: LoopState, k: SortKey)
    requires Inv(s) && !s.quit && !Awaiting(s) && s.optionBuf == [] && s.viewMode == TopView
    ensures Run(s, SortCommand(TokenBytes(k))) == s.(sortOpt := k)
  {
    var w := TokenBytes(k);
    TokenWithoutQ(k);
    TypedSortCommand(s, w);
    ResolveToken(k);
  }

  /** The command surface's `n<limit><Enter>`, from the top view with no prompt open, run to the end. */
  lemma {:induction false} TypedLimitCommand(s: LoopState, w: Bytes)
    requires Inv(s) && !s.quit && !Awaiting(s) && s.optionBuf == [] && s.viewMode == TopView
    requires Typeable(w)
    ensures Run(s, LimitCommand(w)) == match ScanInt(w) case Some(n) => s.(conns := n) case None => s
  {
    var open := s.(waitingLimitOption := true);
    var typed := open.(optionBuf := w);
    assert Next(s, Press('n' as Rune)) == open;
    RunAppend(s, [Press('n' as Rune)] + Typing(w), [EnterKey()]);
    RunCons(s, Press('n' as Rune), Typing(w));
    TypeIntoPrompt(open, w);
    assert open.optionBuf + w == w;
    assert Run(s, [Press('n' as Rune)] + Typing(w)) == typed;
    RunCons(typed, EnterKey(), []);
    assert [EnterKey()] + [] == [EnterKey()];
  }

  /** Typing any 64-bit integer in decimal after `n` sets exactly that limit. */
  lemma TypedLimitValue(s: LoopState, n: int)
    requires Inv(s) && !s.quit && !Awaiting(s) && s.optionBuf == [] && s.viewMode == TopView
    requires Int64Min <= n <= Int64Max
    ensures Run(s, LimitCommand(Show(n))) == s.(conns := n)
  {
    var w := Show(n);
    assert Typeable(w) by {
      forall i | 0 <= i < |w| ensures PrintableKey(w[i]) {
        if n >= 0 {
          assert IsDigit(w[i]);
        } else if i > 0 {
          assert w[i] == Digits(-n)[i - 1];
        }
      }
    }
    TypedLimitCommand(s, w);
    ScanShow(n, []);
    assert w + [] == w;
  }
}

=== FILE: Monitor.dfy ===
/**
 * The fields of the monitoring engine that the dashboard reads and changes. The engine's
 * HTTP client and its polling loop are not part of this model.
 */
module Monitor {
  import opened Text
  import opened SortKeys

  class Engine {
    var uri: Bytes
    var conns: int
    var delay: int
    var sortOpt: SortKey
    var displaySubs: bool

    /** The engine as `main` fills it in; DisplaySubs keeps Go's zero value, false. */
    constructor (uri: Bytes, conns: int, delay: int, sortOpt: SortKey)
      ensures this.uri == uri && this.conns == conns && this.delay == delay
      ensures this.sortOpt == sortOpt && !displaySubs
    {
      this.uri := uri;
      this.conns := conns;
      this.delay := delay;
      this.sortOpt := sortOpt;
      displaySubs := false;
    }
  }
}

=== FILE: Runes.dfy ===
/** Go's conversion `string(r)` of a rune to a string: its UTF-8 encoding. */
module Runes {
  import opened Text

  /** Go's `rune`: a signed 32-bit integer. */
  newtype Rune = x: int | -0x8000_0000 <= x < 0x8000_0000

  /** The replacement character U+FFFD that Go substitutes for a value that is no Unicode scalar. */
  const ReplacementChar: Rune := 0xFFFD

  predicate IsScalar(r: Rune) {
    0 <= r < 0xD800 || 0xE000 <= r <= 0x10FFFF
  }

  /** UTF-8 encoding of r, or of U+FFFD when r is negative, a surrogate or beyond U+10FFFF. */
  function EncodeRune(r: Rune): (b: Bytes)
    ensures 1 <= |b| <= 4
    ensures 0 <= r < 0x80 <==> |b| == 1
    ensures |b| == 1 ==> b[0] as int == r as int
    ensures |b| > 1 ==> forall i :: 0 <= i < |b| ==> b[i] >= 0x80
  {
    var c := if IsScalar(r) then r as int else ReplacementChar as int;
    var q1 := c / 0x40;
    var q2 := q1 / 0x40;
    var q3 := q2 / 0x40;
    if c < 0x80 then [c as byte]
    else if c < 0x800 then [(0xC0 + q1) as byte, (0x80 + c % 0x40) as byte]
    else if c < 0x1_0000 then
      [(0xE0 + q2) as byte, (0x80 + q1 % 0x40) as byte, (0x80 + c % 0x40) as byte]
    else
      [(0xF0 + q3) as byte, (0x80 + q2 % 0x40) as byte, (0x80 + q1 % 0x40) as byte, (0x80 + c % 0x40) as byte]
  }

  /** Decodes one well-formed UTF-8 sequence of one to four bytes, the inverse of EncodeRune. */
  function DecodeRune(b: Bytes): int
    requires 1 <= |b| <= 4
  {
    if |b| == 1 then b[0] as int
    else if |b| == 2 then (b[0] as int - 0xC0) * 0x40 + (b[1] as int - 0x80)
    else if |b| == 3 then
      (b[0] as int - 0xE0) * 0x1000 + (b[1] as int - 0x80) * 0x40 + (b[2] as int - 0x80)
    else
      (b[0] as int - 0xF0) * 0x4_0000 + (b[1] as int - 0x80) * 0x1000
        + (b[2] as int - 0x80) * 0x40 + (b[3] as int - 0x80)
  }

  /** Encoding then decoding gives back every Unicode scalar value, and U+FFFD for anything else. */
  lemma EncodeDecode(r: Rune)
    ensures DecodeRune(EncodeRune(r)) == if IsScalar(r) then r as int else 0xFFFD
  {
    var c := if IsScalar(r) then r as int else 0xFFFD;
    var q1 := c / 0x40;
    var q2 := q1 / 0x40;
    var q3 := q2 / 0x40;
    assert c == q1 * 0x40 + c % 0x40;
    assert q1 == q2 * 0x40 + q1 % 0x40;
    assert q2 == q3 * 0x40 + q2 % 0x40;
  }
}

=== FILE: SortKeys.dfy ===
/**
 * The seven sort options the monitoring server understands. The same closed set is
 * checked for the `-sort` flag at startup (nats-top.go:112-119) and when the operator
 * commits a value at the interactive `sort by` prompt (nats-top.go:356-359).
 */
module SortKeys {
  import opened Text
  import opened Wrappers

  datatype SortKey =
    | ByCid        // "cid"
    | BySubs       // "subs"
    | ByPending    // "pending"
    | ByOutMsgs    // "msgs_to"
    | ByInMsgs     // "msgs_from"
    | ByOutBytes   // "bytes_to"
    | ByInBytes    // "bytes_from"

  /** The wire token of each key, shared with the monitoring server's query parameter. */
  function Token(k: SortKey): (t: string)
    ensures IsAscii(t) && |t| >= 3
  {
    match k
    case ByCid => "cid"
    case BySubs => "subs"
    case ByPending => "pending"
    case ByOutMsgs => "msgs_to"
    case ByInMsgs => "msgs_from"
    case ByOutBytes => "bytes_to"
    case ByInBytes => "bytes_from"
  }

  function TokenBytes(k: SortKey): Bytes {
    Ascii(Token(k))
  }

  /** No token contains the letter `q`, which quits the program even at a prompt. */
  lemma TokenWithoutQ(k: SortKey)
    ensures forall i :: 0 <= i < |TokenBytes(k)| ==> TokenBytes(k)[i] as int != 'q' as int
  {
    var t := Token(k);
    assert forall i :: 0 <= i < |t| ==> t[i] != 'q';
  }

  /**
   * The `switch` over the seven constants: a recognised token gives its key, anything
   * else (including the empty string) gives None and leaves the caller's setting alone.
   */
  function Resolve(s: Bytes): (r: Option<SortKey>)
    ensures r.Some? ==> TokenBytes(r.value) == s
  {
    if s == TokenBytes(ByCid) then Some(ByCid)
    else if s == TokenBytes(BySubs) then Some(BySubs)
    else if s == TokenBytes(ByPending) then Some(ByPending)
    else if s == TokenBytes(ByOutMsgs) then Some(ByOutMsgs)
    else if s == TokenBytes(ByInMsgs) then Some(ByInMsgs)
    else if s == TokenBytes(ByOutBytes) then Some(ByOutBytes)
    else if s == TokenBytes(ByInBytes) then Some(ByInBytes)
    else None
  }

  /** No two keys share a token. */
  lemma TokenInjective(j: SortKey, k: SortKey)
    requires TokenBytes(j) == TokenBytes(k)
    ensures j == k
  {
    var tj, tk := Token(j), Token(k);
    assert |tj| == |TokenBytes(j)| == |TokenBytes(k)| == |tk|;
    assert tj[0] as int == TokenBytes(j)[0] as int == TokenBytes(k)[0] as int == tk[0] as int;
  }

  /** Every key's own token resolves to that key. */
  lemma ResolveToken(k: SortKey)
    ensures Resolve(TokenBytes(k)) == Some(k)
  {
    match k
    case ByCid => assert Resolve(TokenBytes(ByCid)) == Some(ByCid);
    case BySubs => assert Resolve(TokenBytes(BySubs)) == Some(BySubs);
    case ByPending => assert Resolve(TokenBytes(ByPending)) == Some(ByPending);
    case ByOutMsgs =>
      assert TokenBytes(ByOutMsgs)[0] != TokenBytes(ByPending)[0];
      assert Resolve(TokenBytes(ByOutMsgs)) == Some(ByOutMsgs);
    case ByInMsgs => assert Resolve(TokenBytes(ByInMsgs)) == Some(ByInMsgs);
    case ByOutBytes => assert Resolve(TokenBytes(ByOutBytes)) == Some(ByOutBytes);
    case ByInBytes => assert Resolve(TokenBytes(ByInBytes)) == Some(ByInBytes);
  }

  /** Resolve accepts exactly the seven tokens. */
  lemma ResolveExactly(s: Bytes)
    ensures Resolve(s).Some? <==> exists k :: TokenBytes(k) == s
  {
    if k :| TokenBytes(k) == s {
      ResolveToken(k);
    }
  }
}

=== FILE: Startup.dfy ===
/**
 * What `main` decides from the command-line flags before the dashboard starts: the
 * monitoring endpoint, and the configuration errors that end the process.
 */
module Startup {
  import opened Text
  import opened Wrappers
  import opened Decimal
  import opened SortKeys

  /** The flag values, after parsing (-s, -m, -ms, -n, -d, -sort, -v). */
  datatype Flags = Flags(
    host: Bytes, port: int, httpsPort: int, conns: int, delay: int, sortBy: Bytes, showVersion: bool)

  datatype FatalReason = MissingHost | MissingPort | BadSortOption(token: Bytes)

  /** What the engine is built from when startup succeeds. */
  datatype Settings = Settings(uri: Bytes, secure: bool, conns: int, delay: int, sortOpt: SortKey)

  datatype Launch =
    | ShowVersion              // print the version and exit with status 0
    | Fatal(reason: FatalReason)  // log the problem and exit with status 1
    | Start(settings: Settings)

  function HttpsScheme(): Bytes { Ascii("https://") }
  function HttpScheme(): Bytes { Ascii("http://") }
  function Colon(): Bytes { Ascii(":") }

  /** The monitoring endpoint: the secure port over https when it is set, otherwise the plain port. */
  function MonitorUri(host: Bytes, port: int, httpsPort: int): (u: Bytes)
    ensures httpsPort != 0 ==> |u| > |HttpsScheme()| && u[..|HttpsScheme()|] == HttpsScheme()
    ensures httpsPort == 0 ==> |u| > |HttpScheme()| && u[..|HttpScheme()|] == HttpScheme()
  {
    if httpsPort != 0 then HttpsScheme() + host + Colon() + Show(httpsPort)
    else HttpScheme() + host + Colon() + Show(port)
  }

  /**
   * The endpoint starts with the scheme that matches the chosen port, and the text after
   * the scheme, the host and the colon reads back as exactly that port.
   */
  lemma UriRoundTrip(host: Bytes, port: int, httpsPort: int)
    requires Int64Min <= port <= Int64Max && Int64Min <= httpsPort <= Int64Max
    ensures var u := MonitorUri(host, port, httpsPort);
      var scheme := if httpsPort != 0 then HttpsScheme() else HttpScheme();
      var used := if httpsPort != 0 then httpsPort else port;
      |u| > |scheme| + |host| && u[..|scheme|] == scheme && u[|scheme|..|scheme| + |host|] == host
      && u[|scheme| + |host|] == Colon()[0]
      && ScanInt(u[|scheme| + |host| + 1..]) == Some(used)
  {
    var scheme := if httpsPort != 0 then HttpsScheme() else HttpScheme();
    var used := if httpsPort != 0 then httpsPort else port;
    assert MonitorUri(host, port, httpsPort) == scheme + host + Colon() + Show(used);
    Pieces(scheme, host, Colon(), Show(used));
    ScanShow(used, []);
    assert Show(used) + [] == Show(used);
  }

  lemma Pieces(a: Bytes, b: Bytes, c: Bytes, d: Bytes)
    requires |c| == 1
    ensures var u := a + b + c + d;
      |u| > |a| + |b| && u[..|a|] == a && u[|a|..|a| + |b|] == b && u[|a| + |b|] == c[0]
      && u[|a| + |b| + 1..] == d
  {
  }

  /**
   * The checks of `main` in their order: the version flag first, then a missing host, then
   * no monitoring port at all, then an unrecognised sort option; otherwise the settings.
   * (Failures to read TLS files are not modelled.)
   */
  function LaunchFrom(f: Flags): (r: Launch)
    ensures r.ShowVersion? <==> f.showVersion
    ensures r == Fatal(MissingHost) <==> !f.showVersion && f.host == []
    ensures r == Fatal(MissingPort) <==> !f.showVersion && f.host != [] && f.port == 0 && f.httpsPort == 0
    ensures r.Fatal? && r.reason.BadSortOption? ==> r.reason.token == f.sortBy && Resolve(f.sortBy).None?
    ensures r.Start? <==> !f.showVersion && f.host != [] && (f.port != 0 || f.httpsPort != 0)
                          && Resolve(f.sortBy).Some?
    ensures r.Start? ==> TokenBytes(r.settings.sortOpt) == f.sortBy
                         && r.settings.secure == (f.httpsPort != 0)
                         && r.settings.uri == MonitorUri(f.host, f.port, f.httpsPort)
                         && r.settings.conns == f.conns && r.settings.delay == f.delay
  {
    if f.showVersion then ShowVersion
    else
      var uri := MonitorUri(f.host, f.port, f.httpsPort);
      if f.host == [] then Fatal(MissingHost)
      else if f.port == 0 && f.httpsPort == 0 then Fatal(MissingPort)
      else match Resolve(f.sortBy)
        case None => Fatal(BadSortOption(f.sortBy))
        case Some(k) => Start(Settings(uri, f.httpsPort != 0, f.conns, f.delay, k))
  }
}

=== FILE: Text.dfy ===
/** Go strings as byte sequences, and the string helpers the dashboard uses on them. */
module Text {

  newtype byte = x: int | 0 <= x < 256

  /** A Go string: a sequence of bytes, with no encoding enforced. */
  type Bytes = seq<byte>

  predicate IsAscii(s: string) {
    forall i :: 0 <= i < |s| ==> s[i] as int < 128
  }

  /** The bytes of a string literal made of ASCII characters only. */
  function Ascii(s: string): (b: Bytes)
    requires IsAscii(s)
    ensures |b| == |s|
    ensures forall i :: 0 <= i < |s| ==> b[i] as int == s[i] as int
  {
    seq(|s|, i requires 0 <= i < |s| => s[i] as int as byte)
  }

  /** The separator `strings.Join` receives for the subscription column. */
  function CommaSpace(): Bytes {
    Ascii(", ")
  }

  /** Go's strings.Join: the parts with the separator between each adjacent pair. */
  function Join(parts: seq<Bytes>, sep: Bytes): Bytes {
    if |parts| == 0 then []
    else if |parts| == 1 then parts[0]
    else Join(parts[..|parts| - 1], sep) + sep + parts[|parts| - 1]
  }

  function TotalLength(parts: seq<Bytes>): nat {
    if parts == [] then 0 else TotalLength(parts[..|parts| - 1]) + |parts[|parts| - 1]|
  }

  /** Joining n parts adds exactly n - 1 separators and keeps every byte of every part. */
  lemma {:induction false} JoinLength(parts: seq<Bytes>, sep: Bytes)
    ensures |Join(parts, sep)| == TotalLength(parts) + (if parts == [] then 0 else (|parts| - 1) * |sep|)
  {
    if |parts| > 1 {
      JoinLength(parts[..|parts| - 1], sep);
      assert parts[..|parts| - 1][..|parts| - 2] == parts[..|parts| - 2];
    } else if |parts| == 1 {
      assert parts[..0] == [];
    }
  }

  /**
   * Joining read from the front: the first part, the separator, then the rest joined,
   * as strings.Join builds its result left to right.
   */
  lemma {:induction false} JoinCons(x: Bytes, parts: seq<Bytes>, sep: Bytes)
    requires parts != []
    ensures Join([x] + parts, sep) == x + sep + Join(parts, sep)
    decreases |parts|
  {
    var all := [x] + parts;
    var last := parts[|parts| - 1];
    if |parts| == 1 {
      assert all[..1] == [x];
    } else {
      var init := parts[..|parts| - 1];
      assert all[..|all| - 1] == [x] + init;
      JoinCons(x, init, sep);
      assert Join(all, sep) == x + sep + Join(init, sep) + sep + last;
    }
  }
}

=== FILE: Wrappers.dfy ===
/** The optional value used wherever the program either finds something or reports that it did not. */
module Wrappers {
  datatype Option<+T> = None | Some(value: T)
}
